=== FILE: README.md ===
# BizTime bookkeeping routes, modelled in Dafny

BizTime is a small Express/PostgreSQL API over four tables: `companies`,
`invoices`, `industries` and the association table `industrybabies` that links
companies to industries. This project models the logic of its route handlers as
pure functions over an in-memory store (`Store.Db`, one sequence of rows per
table, in stored order) and proves what the handlers promise.

- `store.dfy` (module `Store`): the rows, the store, the `Result` a route
  replies with (`Ok` or `NotFound`) and the three statement shapes the handlers
  issue: `Where` (SELECT ... WHERE), `UpdateWhere` (UPDATE ... RETURNING *) and
  `DeleteWhere` (DELETE with its `rowCount`).
- `industries.dfy` (module `Industries`): the industry listing, the `reduce`
  that groups the rows of `industries LEFT JOIN industrybabies LEFT JOIN
  companies` by industry code, the listing query itself, and the two inserts.
- `invoices.dfy` (module `Invoices`): the paid-date rule, invoice lookup,
  update and removal by id.
- `companies.dfy` (module `Companies`): the company detail view (company row,
  its invoices, the names of its industries), and insert, update and removal
  by code.

SQL results are filters over sequences in stored order. No query carries an
ORDER BY, so the order the model picks is only "some fixed order". Contracts
depend on it only through "first row of the result" and through the order in
which the industry listing appends company codes. Keys are not assumed unique. A
table may hold two rows with one code, and the handlers then act as the SQL
would: an UPDATE or DELETE touches every such row, and a lookup replies with
the first. `slugify` is the parameter `slug: string -> string`. The clock
(`new Date()`) is the parameter `now`.

Points where the code behaves in a way a reader might not expect; the model
follows the code in each:

- The industry listing does not deduplicate company codes. A company code
  appears once per joined row (`Industries.DuplicatesKept`).
- The listing skips an empty-string company code as well as a null one,
  because the source tests JavaScript truthiness (`Industries.Present`).
- The company detail route issues all three queries before it checks that the
  company exists. The two extra reads have no effect on the reply, which is
  still NotFound.
- The detail view's `industries` is a list with one name per link row, not a
  set.
- The invoice update as written does not read the stored `paid_date`, so a
  repeated payment is re-stamped with the current time. Both readings are
  modelled: `Invoices.UpdateInvoiceAsWritten` is the route as written, and
  `Invoices.UpdateInvoice` is the corrected handler its comments describe
  (see Findings). `Invoices.AsWrittenAgreement` states exactly when the two
  agree.

## Model

| member | source | states |
|---|---|---|
| Store.WhereCount | routes/invoices.js:21-23 | SELECT ... WHERE returns each matching row exactly as often as it is stored, and no row that fails the condition |
| Store.Where | routes/invoices.js:21-23 | SELECT ... WHERE: the result keeps exactly the rows satisfying the condition, is never longer than the table, is the whole table when every row matches and empty when none does, and is strictly shorter when some row fails; how often each row appears is stated by Store.WhereCount |
| Store.UpdateWhere | routes/companies.js:83-86 | UPDATE ... WHERE: the table keeps its length, and each row is rewritten exactly when it satisfies the condition, in place |
| Store.UpdateReturned | routes/invoices.js:80-84 | the rows UPDATE ... RETURNING * returns are the selected rows, rewritten, one per selected row, in stored order |
| Store.DeleteWhere | routes/invoices.js:95-99 | DELETE ... WHERE: the rows left are exactly those failing the condition; `rowCount` is 0 iff no row matched, and the table is then unchanged; rows left plus `rowCount` equal the rows before; each surviving row is kept as often as it was stored, so `rowCount` is the number of rows that matched |
| Industries.Step | routes/industries.js:20-38 | one reduce step adds exactly the row's industry code to the keys, leaves every other entry alone, and never overwrites the name of an entry that already exists |
| Industries.FirstName | routes/industries.js:24-30 | the name it picks is the name on a row with that code, and no earlier row has that code |
| Industries.FoldKeys | routes/industries.js:20-38 | the reduce's keys are the accumulator's keys plus the industry codes of the rows, and nothing else |
| Industries.FoldEntry | routes/industries.js:24-35 | an entry already in the accumulator keeps its code and name and gains the row's present company codes; a new entry is keyed by its code, named after the first row with it, and gets those codes in arrival order |
| Industries.FoldConcat | routes/industries.js:20-38 | reducing `rows1 + rows2` equals reducing `rows2` from the result of reducing `rows1` |
| Industries.GroupContents | routes/industries.js:20-38 | from the empty object, the key set is exactly the set of industry codes in the rows; each entry's `code` is its key, its `industry` is the name on the first row with that code, and its `companies` are that code's present company codes in arrival order |
| Industries.LinkedMembership | routes/industries.js:33-35 | a code is in an industry's `companies` iff it is non-empty and some row with that industry code carries it |
| Industries.LinkedLength | routes/industries.js:33-35 | `companies` has one element per contributing row (the SELECT count of rows with that code and a present company); nothing is deduplicated |
| Industries.UnlinkedIndustry | routes/industries.js:24-35 | an industry none of whose rows carries a company code is listed with `companies = []` |
| Industries.DuplicatesKept | routes/industries.js:33-35 | two identical rows put the same company code in the list twice |
| Industries.FirstNameConcat | routes/industries.js:24-30 | the first name for a code in `a + b` comes from `a` when the code occurs in `a`, otherwise from `b` |
| Industries.Fold | routes/industries.js:20-38 | the reduce from a given accumulator; no contract of its own: its keys are stated by Industries.FoldKeys, its entries by Industries.FoldEntry, and its behaviour on split input by Industries.FoldConcat |
| Industries.Group | routes/industries.js:20-38 | the reduce from `{}`; no contract of its own: its contents are stated by Industries.GroupContents |
| Industries.CompanyRows | routes/industries.js:16 | the outer join with companies yields at least one row per link; each row carries the industry's code and name; a non-null company code equals the link's and names an existing company; a matching company always yields its row |
| Industries.LinkRows | routes/industries.js:14-16 | the rows of one industry's links: at least one row when there is a link; each row carries the industry's code and name; a non-null company code comes from one of the links and names an existing company; every link to an existing company yields its row |
| Industries.IndustryRows | routes/industries.js:14-16 | an industry yields at least one row, all with its code and name; a non-null company code comes from a link to this industry and an existing company; every such link to an existing company yields its row |
| Industries.JoinRows | routes/industries.js:12-17 | the listing query, industry by industry; no contract of its own: its rows are stated by Industries.JoinRowsCodes, Industries.JoinRowsBacked, Industries.JoinRowsComplete and Industries.JoinRowsFirstName |
| Industries.JoinRowsCodes | routes/industries.js:12-17 | the listing query yields exactly the industry codes of the industries table, so an industry without links still appears |
| Industries.JoinRowsBacked | routes/industries.js:12-17 | each non-null company code the query yields is backed by a link from that company to that industry and by a company row with that code |
| Industries.JoinRowsComplete | routes/industries.js:12-17 | each link from an existing company to an industry of the table yields a row carrying that company code |
| Industries.JoinRowsFirstName | routes/industries.js:12-30 | the first name the query yields for a code is the name of the first industry row with that code |
| Industries.ListIndustries | routes/industries.js:9-41 | GET /industries; no contract of its own: its entries are stated by Industries.ListingEntries, Industries.ListingCompanies and Industries.ListingUnlinked |
| Industries.ListingEntries | routes/industries.js:9-41 | GET /industries has one key per industry code in the table; each entry's `code` is its key and its `industry` is the first industry row's name for that code |
| Industries.ListingCompanies | routes/industries.js:12-35 | a company code is listed under an industry iff it is non-empty, a link (company, industry) exists and a company with that code exists |
| Industries.ListingUnlinked | routes/industries.js:12-35 | an industry with no links is listed with `companies = []` |
| Industries.CreateIndustry | routes/industries.js:48-58 | POST /industries replies with the inserted row, whose code is `slug(code)`; the industries table gains exactly that row at the end; the other tables are unchanged |
| Industries.LinkCompany | routes/industries.js:65-72 | POST /industries/:compCode/:indCode adds exactly the pair to the association table and replies with it; nothing else changes |
| Industries.CreateThenList | routes/industries.js:48-58 | after creation the slug is a key of the listing, named as given when no industry had that code before |
| Industries.LinkThenList | routes/industries.js:65-72 | after linking an existing company to an existing industry, the listing shows the company under that industry |
| Invoices.NextPaidDate | routes/invoices.js:70-78 | un-paying gives no date; a first payment gives `now`; a repeated payment keeps the current date; the result has a date iff `paid` is true |
| Invoices.PaidDateClosedForm | routes/invoices.js:71-78 | the three-way rule equals "when paying, the current date or else now; when un-paying, none" |
| Invoices.PaidDateIdempotent | routes/invoices.js:76-77 | applying the paying rule twice, at any two times, gives the date of the first application |
| Invoices.GetInvoice | routes/invoices.js:18-31 | GET /invoices/:id is NotFound iff no row has the id; otherwise it replies with a stored row with that id |
| Invoices.DeleteInvoice | routes/invoices.js:92-105 | DELETE is NotFound iff no row has the id, and then the store is unchanged; otherwise it replies `deleted`; afterwards the invoices are exactly the old ones with another id, each as often as before; other tables unchanged |
| Invoices.DeleteThenGet | routes/invoices.js:92-105 | after a DELETE, a lookup of the id and a second DELETE are both NotFound |
| Invoices.Rewrite | routes/invoices.js:81 | the SET list `amt, paid, paid_date`; no contract of its own: Invoices.ApplyUpdate and Invoices.UpdateScope state that it changes those three columns only |
| Invoices.ApplyUpdate | routes/invoices.js:80-85 | the UPDATE sets amt, paid and paid_date on exactly the rows with the id, keeps every other row and column, and replies with a rewritten row |
| Invoices.UpdateInvoice | routes/invoices.js:52-89 | corrected handler (see Findings): PUT /invoices/:id is NotFound iff no row has the id, and the store is then untouched (the UPDATE is never reached); otherwise the reply carries the id, amt and paid requested, and has a paid date iff paid is true |
| Invoices.PaidDateOf | routes/invoices.js:59-70 | reading `paid_date` off a row of `SELECT paid` (the datatype `Invoices.PaidColumn`), which never has that column; no contract of its own: its effect is stated by Invoices.UpdateInvoiceAsWritten and Invoices.AsWrittenAgreement |
| Invoices.UpdateInvoiceAsWritten | routes/invoices.js:52-89 | the handler as written: NotFound iff no row has the id, with the store untouched; otherwise the reply carries the id, amt and paid requested and is a stored row; every `paid = true` update gets `paid_date = now` and every `paid = false` update no date; the UPDATE rewrites amt, paid and that date on exactly the rows with the id and keeps every other row and table |
| Invoices.AsWrittenAgreement | routes/invoices.js:59-77 | the handler as written and the corrected one give the same reply and store iff the request un-pays, the id is unknown, or the looked-up row has no paid date or has `now` as its date |
| Invoices.AsWrittenKeepsConsistent | routes/invoices.js:72-83 | as written, too: if every invoice has a paid date iff it is paid, that still holds after any PUT |
| Invoices.AsWrittenThenGet | routes/invoices.js:80-85 | as written: after a successful PUT, GET on the id replies with the row the PUT replied with |
| Invoices.UpdateScope | routes/invoices.js:80-83 | corrected handler: PUT keeps id, comp_code and add_date of every row, changes no row with another id, and leaves companies, industries and links unchanged |
| Invoices.UpdatePaidDate | routes/invoices.js:70-78 | corrected handler (see Findings), against the row GET shows before the update: un-paying clears the date, a first payment stamps `now`, a repeated payment keeps the stored date |
| Invoices.UpdateThenGet | routes/invoices.js:80-85 | corrected handler: after a successful PUT, GET on the id replies with the row the PUT replied with |
| Invoices.RepayKeepsDate | routes/invoices.js:71-77 | corrected handler (see Findings): paying an invoice twice keeps the paid date of the first payment, as the comment at line 71 intends; the route as written re-stamps it |
| Invoices.UpdateKeepsConsistent | routes/invoices.js:72-83 | corrected handler: if every invoice has a paid date iff it is paid, that still holds after any PUT |
| Invoices.AsWrittenRestampsPaidInvoice | routes/invoices.js:59-73 | on a paid invoice dated 20240102, paying again at 20240301 as written gives 20240301, while reading the stored date keeps 20240102 |
| Companies.NamesFor | routes/companies.js:32-37 | the names one link joins to are the display names of the industries with the link's industry code, one per matching industry row |
| Companies.LinkedNames | routes/companies.js:32-37 | a name is in the join iff some given link points at an industry with that name |
| Companies.IndustryNames | routes/companies.js:32-37 | a name is listed iff some link of this company points at an industry row with that name |
| Companies.GetCompanyDetail | routes/companies.js:20-55 | GET /companies/:code is NotFound iff no company has the code; otherwise the view keeps a stored row's code, name and description, holds exactly the invoices billed to the code, each as often as it is stored, and exactly the names of the industries linked to it |
| Companies.DetailNoInvoices | routes/companies.js:27-50 | an existing company with no invoices is shown with `invoices = []`, not NotFound |
| Companies.UniqueCodeSelectedOnce | routes/companies.js:33-34 | with unique industry codes, a link to an existing industry joins with exactly one industry row |
| Companies.LinkedNamesCount | routes/companies.js:32-37 | with unique industry codes and every link resolved, the join yields exactly one name per link |
| Companies.DetailIndustriesCount | routes/companies.js:32-51 | under the same conditions the view lists one industry name per link row of the company, with no deduplication |
| Companies.CreateCompany | routes/companies.js:62-72 | POST /companies replies with the inserted row `(slug(code), name, description)`; the companies table gains exactly that row at the end; the other tables are unchanged |
| Companies.Rename | routes/companies.js:84 | the SET list `name, description`; no contract of its own: Companies.UpdateCompany states that it changes those two columns only |
| Companies.UpdateCompany | routes/companies.js:79-94 | PUT /companies/:code is NotFound iff no company has the code, and the store is then unchanged; otherwise it replies with `(code, name, description)`, rewrites exactly the rows with that code, and keeps all other rows and tables |
| Companies.DeleteCompany | routes/companies.js:101-114 | DELETE is NotFound iff no company has the code, and the store is then unchanged; otherwise it replies `deleted`; afterwards the companies are exactly the old ones with another code, each as often as before |
| Companies.CreateThenDetail | routes/companies.js:62-72 | a company created under a fresh slug is then shown by the detail view with the given name and description |
| Companies.UpdateThenDetail | routes/companies.js:20-94 | after a successful PUT the detail view shows the new name and description |
| Companies.DeleteThenDetail | routes/companies.js:101-114 | after a DELETE the detail view and a second DELETE are NotFound |
| Companies.FixtureScenario | routes/companies.test.js:12-110 | on the test fixture, `nv` is shown with its one invoice and no industries, code `0` is NotFound, PUT replies with the new row, and DELETE succeeds once and is NotFound the second time |

## Left out

- app.js (routing, JSON parsing, the catch-all 404, the error handler) and
  db.js (the pg client and the test-database suffix) are HTTP and connection
  plumbing. A `Result` stands for the reply: `NotFound` is the 404, `Ok` any
  success. Status codes (201 versus 200) and the JSON envelope are not modelled.
- Database errors passed to `next(error)` are not modelled. These are
  connection failures, key and foreign-key violations and an id that is not a
  number. The store is modelled as accepting every insert.
- Companies.DeleteCompany assumes a schema without ON DELETE CASCADE: it keeps
  the invoices and links tables as they were. Under a cascading schema the
  database would also remove the company's invoices and links, which the model
  does not do.
- GET /companies and GET /invoices return a whole table with no logic, so they
  are not modelled.
- POST /invoices is not modelled, because its id and add_date come from
  column defaults in the schema.
- `slugify` is an uninterpreted parameter. The shape and idempotence of slugs
  are not modelled.
- `new Date()` is the parameter `now`. Dates are opaque integers, and amounts
  are integers that pass through untouched.
- Request bodies are taken as typed: `paid` is a boolean, and `name` and
  `industry` are strings. JavaScript values such as `undefined` or a truthy
  non-boolean `paid` are not modelled.
- The reduce's accumulator is modelled as a plain map. With a JavaScript `{}`,
  an industry code naming an inherited property, such as `constructor`, would
  behave differently. That case is not modelled.
- There is no concurrency. Each handler runs against one snapshot of the
  store, and logging is dropped.
- The rows of the listing query are produced in one fixed order, industry by
  industry and link by link. SQL gives no order. Two things in the listing
  depend on that order: each entry's name, through "first row", and the order
  of each entry's `companies`, which is the arrival order of the rows
  (`Industries.GroupContents`). Which codes and names appear does not.
- The listing is a map, so the key order of the JavaScript object sent as JSON
  is not modelled. In JavaScript that order is the order in which codes first
  arrive, except that integer-like codes come first in ascending order.
- Invoices.GetInvoice: states that the reply is some stored row with the id,
  not which one when several rows share the id.
- Companies.GetCompanyDetail: states which invoices appear and how often, and
  which industry names appear. It does not state their order, because no ORDER
  BY is issued and the database may return the rows in any order. How often an
  industry name appears is stated only when industry codes are unique, by
  Companies.DetailIndustriesCount; with duplicate industry codes the inner join
  multiplies rows, and that count is not stated.

## Findings

| source | as written | input that shows it | evidently intended | confidence | as-written member | corrected member |
|---|---|---|---|---|---|---|
| routes/invoices.js:59-77 | the lookup selects only `paid`, so `currentInvoice.rows[0].paid_date` is always undefined, and every `paid = true` update stamps `now` | an invoice stored paid on 20240102, updated with `paid = true` at 20240301: its paid date becomes 20240301 | the comment at line 71 and the `else` at 76-77 keep the existing date on re-payment; the lookup should select `paid_date` too | high; not executed | Invoices.UpdateInvoiceAsWritten, Invoices.AsWrittenRestampsPaidInvoice, Invoices.AsWrittenAgreement | Invoices.UpdateInvoice, Invoices.RepayKeepsDate, Invoices.UpdatePaidDate |

=== FILE: companies.dfy ===
/** The companies routes: the detail view that joins a company with its invoices
    and industry names, and the insert, update and removal by code. */
module Companies {
  import opened Store

  /** The WHERE condition `code = $1` on companies. */
  function CodeIs(code: string): Company -> bool {
    (c: Company) => c.code == code
  }

  /** The WHERE condition `comp_code = $1` on invoices. */
  function BilledTo(code: string): Invoice -> bool {
    (inv: Invoice) => inv.compCode == code
  }

  /** The WHERE condition `industrybabies.comp_code = $1` on links. */
  function LinkedTo(code: string): Link -> bool {
    (l: Link) => l.compCode == code
  }

  /** The join condition `industries.code = industrybabies.ind_code` for one link. */
  function IndustryOf(link: Link): Industry -> bool {
    (i: Industry) => i.code == link.indCode
  }

  /** The company object the detail route sends: the company's own columns plus
      its invoices and the display names of its industries. */
  datatype CompanyDetail = CompanyDetail(
    code: string,
    name: string,
    description: Option<string>,
    invoices: seq<Invoice>,
    industries: seq<string>)

  // ----- The industry-names query -----

  /** The display names of the industries one link points at. */
  function NamesFor(link: Link, inds: seq<Industry>): (names: seq<string>)
    ensures |names| == |Where(inds, IndustryOf(link))|
    ensures forall n :: n in names <==> exists i :: i in inds && i.code == link.indCode && i.industry == n
  {
    var m := Where(inds, IndustryOf(link));
    var names := seq(|m|, k requires 0 <= k < |m| => m[k].industry);
    assert forall i :: i in m ==> i.industry in names by {
      forall i | i in m ensures i.industry in names {
        var k :| 0 <= k < |m| && m[k] == i;
        assert names[k] == i.industry;
      }
    }
    assert forall n :: n in names ==> exists i :: i in m && i.industry == n by {
      forall n | n in names ensures exists i :: i in m && i.industry == n {
        var k :| 0 <= k < |names| && names[k] == n;
        assert m[k] in m;
      }
    }
    names
  }

  /** The inner join of the given links with the industries table, link by link. */
  function LinkedNames(links: seq<Link>, inds: seq<Industry>): (names: seq<string>)
    ensures forall n :: n in names <==>
      exists l, i :: l in links && i in inds && i.code == l.indCode && i.industry == n
    decreases |links|
  {
    if links == [] then []
    else
      var names := NamesFor(links[0], inds) + LinkedNames(links[1..], inds);
      assert links == [links[0]] + links[1..];
      names
  }

  /** `SELECT industries.industry FROM industries JOIN industrybabies ... WHERE
      industrybabies.comp_code = $1`. */
  function IndustryNames(db: Db, code: string): (names: seq<string>)
    ensures forall n :: n in names <==>
      exists l, i :: l in db.links && l.compCode == code && i in db.industries && i.code == l.indCode && i.industry == n
  {
    LinkedNames(Where(db.links, LinkedTo(code)), db.industries)
  }

  // ----- GET /companies/:code -----

  /** GET /companies/:code.  All three queries are issued before the company row
      is checked; NotFound when no company has the code, otherwise the first
      matching row with every invoice billed to the code and the names of every
      industry linked to it. */
  function GetCompanyDetail(db: Db, code: string): (r: Result<CompanyDetail>)
    ensures r.NotFound? <==> forall c :: c in db.companies ==> c.code != code
    ensures r.Ok? ==> r.value.code == code && Company(code, r.value.name, r.value.description) in db.companies
    ensures r.Ok? ==> forall inv :: inv in r.value.invoices <==> inv in db.invoices && inv.compCode == code
    ensures r.Ok? ==> forall inv: Invoice :: inv.compCode == code ==> multiset(r.value.invoices)[inv] == multiset(db.invoices)[inv]
    ensures r.Ok? ==> forall n :: n in r.value.industries <==>
      exists l, i :: l in db.links && l.compCode == code && i in db.industries && i.code == l.indCode && i.industry == n
  {
    var companyRows := Where(db.companies, CodeIs(code));
    var invoiceRows := Where(db.invoices, BilledTo(code));
    assert forall inv: Invoice :: inv.compCode == code ==> multiset(invoiceRows)[inv] == multiset(db.invoices)[inv] by {
      forall inv: Invoice | inv.compCode == code ensures multiset(invoiceRows)[inv] == multiset(db.invoices)[inv] {
        WhereCount(db.invoices, BilledTo(code), inv);
      }
    }
    var industryNames := IndustryNames(db, code);
    if |companyRows| == 0 then NotFound
    else
      var c := companyRows[0];
      assert c in companyRows;
      Ok(CompanyDetail(c.code, c.name, c.description, invoiceRows, industryNames))
  }

  /** A company without invoices is shown with an empty invoice list. */
  lemma DetailNoInvoices(db: Db, code: string)
    requires exists c :: c in db.companies && c.code == code
    requires forall inv :: inv in db.invoices ==> inv.compCode != code
    ensures GetCompanyDetail(db, code).Ok?
    ensures GetCompanyDetail(db, code).value.invoices == []
  {
    var r := GetCompanyDetail(db, code);
    assert Where(db.invoices, BilledTo(code)) == [];
  }

  /** Industry codes are keys: no two industry rows share one. */
  predicate UniqueIndustryCodes(inds: seq<Industry>) {
    forall i, j :: 0 <= i < j < |inds| ==> inds[i].code != inds[j].code
  }

  /** A unique key that occurs is selected exactly once. */
  lemma {:induction false} UniqueCodeSelectedOnce(inds: seq<Industry>, link: Link)
    requires UniqueIndustryCodes(inds)
    requires exists i :: i in inds && i.code == link.indCode
    ensures |Where(inds, IndustryOf(link))| == 1
    decreases |inds|
  {
    var p := IndustryOf(link);
    assert inds == [inds[0]] + inds[1..];
    assert UniqueIndustryCodes(inds[1..]) by {
      forall i, j | 0 <= i < j < |inds[1..]| ensures inds[1..][i].code != inds[1..][j].code {
        assert inds[1..][i] == inds[i + 1] && inds[1..][j] == inds[j + 1];
      }
    }
    if inds[0].code == link.indCode {
      assert forall x :: x in inds[1..] ==> !p(x) by {
        forall x | x in inds[1..] ensures !p(x) {
          var j :| 0 <= j < |inds[1..]| && inds[1..][j] == x;
          assert inds[j + 1] == x;
        }
      }
      assert Where(inds[1..], p) == [];
    } else {
      assert exists i :: i in inds[1..] && i.code == link.indCode by {
        var i :| i in inds && i.code == link.indCode;
        assert i in inds[1..];
      }
      UniqueCodeSelectedOnce(inds[1..], link);
    }
  }

  /** With unique industry codes and every link pointing at an existing industry,
      the detail lists exactly one industry name per link of the company:
      duplicates are not removed. */
  lemma {:induction false} LinkedNamesCount(links: seq<Link>, inds: seq<Industry>)
    requires UniqueIndustryCodes(inds)
    requires forall l :: l in links ==> exists i :: i in inds && i.code == l.indCode
    ensures |LinkedNames(links, inds)| == |links|
    decreases |links|
  {
    if links != [] {
      assert links[0] in links;
      UniqueCodeSelectedOnce(inds, links[0]);
      assert forall l :: l in links[1..] ==> l in links;
      LinkedNamesCount(links[1..], inds);
    }
  }

  /** The same count for the detail view: one name per link row of the company. */
  lemma DetailIndustriesCount(db: Db, code: string)
    requires UniqueIndustryCodes(db.industries)
    requires forall l :: l in db.links ==> exists i :: i in db.industries && i.code == l.indCode
    requires exists c :: c in db.companies && c.code == code
    ensures GetCompanyDetail(db, code).Ok?
    ensures |GetCompanyDetail(db, code).value.industries| == |Where(db.links, LinkedTo(code))|
  {
    LinkedNamesCount(Where(db.links, LinkedTo(code)), db.industries);
  }

  // ----- POST, PUT and DELETE /companies -----

  /** POST /companies: inserts (slug(code), name, description) and returns the
      inserted row; nothing else changes. */
  function CreateCompany(db: Db, slug: string -> string, inputCode: string, name: string, description: Option<string>)
    : (o: Outcome<Company>)
    ensures o.result.Ok?
    ensures o.result.value.code == slug(inputCode) && o.result.value.name == name
    ensures o.result.value.description == description
    ensures o.store.companies == db.companies + [o.result.value]
    ensures o.store.invoices == db.invoices && o.store.industries == db.industries && o.store.links == db.links
  {
    var row := Company(slug(inputCode), name, description);
    Outcome(Ok(row), db.(companies := db.companies + [row]))
  }

  /** The SET list of the update: name and description, nothing else. */
  function Rename(name: string, description: Option<string>): Company -> Company {
    (c: Company) => c.(name := name, description := description)
  }

  /** PUT /companies/:code: rewrites name and description of the rows with that
      code and returns the first; NotFound, with the store unchanged, when the
      UPDATE matched nothing. */
  function UpdateCompany(db: Db, code: string, name: string, description: Option<string>): (o: Outcome<Company>)
    ensures o.result.NotFound? <==> forall c :: c in db.companies ==> c.code != code
    ensures o.result.NotFound? ==> o.store == db
    ensures o.result.Ok? ==> o.result.value == Company(code, name, description)
    ensures o.result.Ok? ==> o.result.value in o.store.companies
    ensures |o.store.companies| == |db.companies|
    ensures forall i :: 0 <= i < |db.companies| ==>
      o.store.companies[i] ==
        if db.companies[i].code == code then Company(code, name, description) else db.companies[i]
    ensures o.store.invoices == db.invoices && o.store.industries == db.industries && o.store.links == db.links
  {
    var p, f := CodeIs(code), Rename(name, description);
    var w := UpdateWhere(db.companies, p, f);
    var after := db.(companies := w.table);
    UpdateReturned(db.companies, p, f);
    if |w.returned| == 0 then
      assert Where(db.companies, p) == [];
      UpdateNothingMatched(db.companies, p, f);
      Outcome(NotFound, after)
    else
      assert w.returned[0] in w.table by {
        UpdateThenWhere(db.companies, p, f);
        assert w.returned[0] in Where(w.table, p);
      }
      assert Where(db.companies, p)[0] in Where(db.companies, p);
      Outcome(Ok(w.returned[0]), after)
  }

  /** DELETE /companies/:code: removes the rows with that code; NotFound when the
      DELETE removed nothing, in which case the store is left as it was. */
  function DeleteCompany(db: Db, code: string): (o: Outcome<Status>)
    ensures o.result.NotFound? <==> forall c :: c in db.companies ==> c.code != code
    ensures o.result.NotFound? ==> o.store == db
    ensures o.result.Ok? ==> o.result.value == Deleted
    ensures forall c :: c in o.store.companies <==> c in db.companies && c.code != code
    ensures forall c: Company :: c.code != code ==> multiset(o.store.companies)[c] == multiset(db.companies)[c]
    ensures o.store.invoices == db.invoices && o.store.industries == db.industries && o.store.links == db.links
  {
    var d := DeleteWhere(db.companies, CodeIs(code));
    var after := db.(companies := d.table);
    if d.rowCount == 0 then Outcome(NotFound, after) else Outcome(Ok(Deleted), after)
  }

  // ----- Round trips through the detail view -----

  /** A company created under a fresh code is then shown with the given name and
      description. */
  lemma CreateThenDetail(db: Db, slug: string -> string, inputCode: string, name: string, description: Option<string>)
    requires forall c :: c in db.companies ==> c.code != slug(inputCode)
    ensures GetCompanyDetail(CreateCompany(db, slug, inputCode, name, description).store, slug(inputCode)).Ok?
    ensures
      var d := GetCompanyDetail(CreateCompany(db, slug, inputCode, name, description).store, slug(inputCode)).value;
      d.code == slug(inputCode) && d.name == name && d.description == description
  {
    var after := CreateCompany(db, slug, inputCode, name, description).store;
    assert Company(slug(inputCode), name, description) in after.companies;
  }

  /** After a successful update the detail view shows the new name and description. */
  lemma UpdateThenDetail(db: Db, code: string, name: string, description: Option<string>)
    requires UpdateCompany(db, code, name, description).result.Ok?
    ensures GetCompanyDetail(UpdateCompany(db, code, name, description).store, code).Ok?
    ensures GetCompanyDetail(UpdateCompany(db, code, name, description).store, code).value.name == name
    ensures GetCompanyDetail(UpdateCompany(db, code, name, description).store, code).value.description == description
  {
  }

  /** After a DELETE the code is gone: the detail view, and a second DELETE, are
      NotFound. */
  lemma DeleteThenDetail(db: Db, code: string)
    ensures GetCompanyDetail(DeleteCompany(db, code).store, code) == NotFound
    ensures DeleteCompany(DeleteCompany(db, code).store, code).result == NotFound
  {
  }

  /** The fixture of the route tests: company `nv` with one unpaid invoice. */
  lemma FixtureScenario()
    ensures
      var inv := Invoice(1, "nv", 1244, false, 20240101, None);
      var db := Db([Company("nv", "Nvidia", Some("We sell things"))], [inv], [], []);
      GetCompanyDetail(db, "nv") == Ok(CompanyDetail("nv", "Nvidia", Some("We sell things"), [inv], []))
      && GetCompanyDetail(db, "0") == NotFound
      && UpdateCompany(db, "nv", "NewNew", Some("Dookie")).result == Ok(Company("nv", "NewNew", Some("Dookie")))
      && DeleteCompany(db, "nv").result == Ok(Deleted)
      && DeleteCompany(DeleteCompany(db, "nv").store, "nv").result == NotFound
  {
    var inv := Invoice(1, "nv", 1244, false, 20240101, None);
    var db := Db([Company("nv", "Nvidia", Some("We sell things"))], [inv], [], []);
    assert Where(db.companies, CodeIs("nv")) == db.companies;
    assert Where(db.invoices, BilledTo("nv")) == db.invoices;
  }
}

=== FILE: industries.dfy ===
/** The industries routes: the listing that groups the rows of an outer join by
    industry code, and the two inserts (a new industry, a company-industry link). */
module Industries {
  import opened Store

  /** One row of the listing query: an industry joined, through the association
      table and then the companies table, to a company code that is null when the
      outer join found nothing. */
  datatype JoinRow = JoinRow(industryCode: string, industryName: string, companyCode: Option<string>)

  /** One value of the listing mapping. */
  datatype Entry = Entry(code: string, industry: string, companies: seq<string>)

  type Listing = map<string, Entry>

  /** JavaScript truthiness of the joined company code: both null and the empty
      string are falsy, so neither is pushed. */
  predicate Present(c: Option<string>) {
    c.Some? && c.value != ""
  }

  /** The accumulator step of the listing's reduce: seed the entry the first time
      a code is seen, then append the row's company code if it is present. */
  function Step(acc: Listing, row: JoinRow): (r: Listing)
    ensures r.Keys == acc.Keys + {row.industryCode}
    ensures forall k :: k in acc && k != row.industryCode ==> r[k] == acc[k]
    ensures row.industryCode in acc ==>
      r[row.industryCode].code == acc[row.industryCode].code && r[row.industryCode].industry == acc[row.industryCode].industry
    ensures row.industryCode !in acc ==>
      r[row.industryCode].code == row.industryCode && r[row.industryCode].industry == row.industryName
    ensures r[row.industryCode].companies ==
      (if row.industryCode in acc then acc[row.industryCode].companies else [])
      + (if Present(row.companyCode) then [row.companyCode.value] else [])
  {
    var seeded :=
      if row.industryCode in acc then acc
      else acc[row.industryCode := Entry(row.industryCode, row.industryName, [])];
    if Present(row.companyCode) then
      var e := seeded[row.industryCode];
      seeded[row.industryCode := e.(companies := e.companies + [row.companyCode.value])]
    else seeded
  }

  /** The reduce itself, from a given accumulator, in arrival order. */
  function Fold(acc: Listing, rows: seq<JoinRow>): Listing
    decreases |rows|
  {
    if rows == [] then acc else Fold(Step(acc, rows[0]), rows[1..])
  }

  /** The listing built from the empty object. */
  function Group(rows: seq<JoinRow>): Listing {
    Fold(map[], rows)
  }

  // ----- Reference definitions the fold is measured against -----

  /** The industry codes occurring in the rows. */
  function Codes(rows: seq<JoinRow>): set<string> {
    set r | r in rows :: r.industryCode
  }

  /** The present company codes of the rows with industry code `k`, in arrival
      order, duplicates kept. */
  function Linked(rows: seq<JoinRow>, k: string): seq<string>
    decreases |rows|
  {
    if rows == [] then []
    else if rows[0].industryCode == k && Present(rows[0].companyCode) then
      [rows[0].companyCode.value] + Linked(rows[1..], k)
    else Linked(rows[1..], k)
  }

  /** The industry name on the first row with code `k`. */
  function FirstName(rows: seq<JoinRow>, k: string): (name: string)
    requires k in Codes(rows)
    ensures exists i :: 0 <= i < |rows| && rows[i].industryCode == k && rows[i].industryName == name
                        && forall j :: 0 <= j < i ==> rows[j].industryCode != k
    decreases |rows|
  {
    if rows[0].industryCode == k then rows[0].industryName
    else
      assert k in Codes(rows[1..]) by {
        var r :| r in rows && r.industryCode == k;
        assert r in rows[1..];
      }
      var name := FirstName(rows[1..], k);
      ghost var i :| 1 <= i + 1 < |rows| && rows[1..][i].industryCode == k && rows[1..][i].industryName == name
                     && forall j :: 0 <= j < i ==> rows[1..][j].industryCode != k;
      assert rows[i + 1] == rows[1..][i];
      name
  }

  /** The predicate selecting the rows that contribute a company to industry `k`. */
  function LinkRowOf(k: string): JoinRow -> bool {
    (r: JoinRow) => r.industryCode == k && Present(r.companyCode)
  }

  // ----- Properties of the fold -----

  lemma {:induction false} FoldKeys(acc: Listing, rows: seq<JoinRow>)
    ensures Fold(acc, rows).Keys == acc.Keys + Codes(rows)
    decreases |rows|
  {
    if rows != [] {
      FoldKeys(Step(acc, rows[0]), rows[1..]);
      assert Codes(rows) == {rows[0].industryCode} + Codes(rows[1..]) by {
        assert rows == [rows[0]] + rows[1..];
      }
    }
  }

  /** What the fold makes of one key: an entry already in the accumulator keeps
      its code and name and gains the linked companies; a new one takes its name
      from the first row with that code. */
  lemma {:induction false} FoldEntry(acc: Listing, rows: seq<JoinRow>, k: string)
    requires k in acc || k in Codes(rows)
    ensures k in Fold(acc, rows)
    ensures Fold(acc, rows)[k] ==
      if k in acc then acc[k].(companies := acc[k].companies + Linked(rows, k))
      else Entry(k, FirstName(rows, k), Linked(rows, k))
    decreases |rows|
  {
    FoldKeys(acc, rows);
    if rows != [] {
      var r0 := rows[0];
      var rest := rows[1..];
      var acc' := Step(acc, r0);
      var own := if r0.industryCode == k && Present(r0.companyCode) then [r0.companyCode.value] else [];
      assert Linked(rows, k) == own + Linked(rest, k);
      if k in acc {
        assert acc'[k] == acc[k].(companies := acc[k].companies + own);
        FoldEntry(acc', rest, k);
        assert acc[k].companies + own + Linked(rest, k) == acc[k].companies + Linked(rows, k);
      } else if r0.industryCode == k {
        assert acc'[k] == Entry(k, r0.industryName, own);
        assert FirstName(rows, k) == r0.industryName;
        FoldEntry(acc', rest, k);
      } else {
        assert k in Codes(rest) by {
          var r :| r in rows && r.industryCode == k;
          assert r in rest;
        }
        assert k !in acc';
        assert FirstName(rows, k) == FirstName(rest, k);
        FoldEntry(acc', rest, k);
      }
    }
  }

  /** Folding a concatenation is folding the second part from the result of the
      first: the reduce can be split at any row. */
  lemma {:induction false} FoldConcat(acc: Listing, rows1: seq<JoinRow>, rows2: seq<JoinRow>)
    ensures Fold(acc, rows1 + rows2) == Fold(Fold(acc, rows1), rows2)
    decreases |rows1|
  {
    if rows1 != [] {
      assert (rows1 + rows2)[0] == rows1[0];
      assert (rows1 + rows2)[1..] == rows1[1..] + rows2;
      FoldConcat(Step(acc, rows1[0]), rows1[1..], rows2);
    } else {
      assert rows1 + rows2 == rows2;
    }
  }

  /** The listing's keys are exactly the industry codes of the rows, and each
      entry carries its own key as code, the name of the first row with that code,
      and the present company codes of its rows in arrival order. */
  lemma GroupContents(rows: seq<JoinRow>)
    ensures Group(rows).Keys == Codes(rows)
    ensures forall k :: k in Group(rows) ==> Group(rows)[k] == Entry(k, FirstName(rows, k), Linked(rows, k))
  {
    FoldKeys(map[], rows);
    forall k | k in Group(rows)
      ensures Group(rows)[k] == Entry(k, FirstName(rows, k), Linked(rows, k))
    {
      FoldEntry(map[], rows, k);
    }
  }

  /** A company code is listed under `k` exactly when some row with code `k`
      carries it and it is not the empty string. */
  lemma {:induction false} LinkedMembership(rows: seq<JoinRow>, k: string, c: string)
    ensures c in Linked(rows, k) <==>
      c != "" && exists r :: r in rows && r.industryCode == k && r.companyCode == Some(c)
    decreases |rows|
  {
    if rows != [] {
      LinkedMembership(rows[1..], k, c);
      assert rows == [rows[0]] + rows[1..];
    }
  }

  /** One company code per contributing row: nothing is deduplicated. */
  lemma {:induction false} LinkedLength(rows: seq<JoinRow>, k: string)
    ensures |Linked(rows, k)| == |Where(rows, LinkRowOf(k))|
    decreases |rows|
  {
    if rows != [] {
      LinkedLength(rows[1..], k);
    }
  }

  /** An industry none of whose rows carries a company, as the outer join yields
      for an industry without links, is listed with no companies. */
  lemma UnlinkedIndustry(rows: seq<JoinRow>, k: string)
    requires k in Codes(rows)
    requires forall r :: r in rows && r.industryCode == k ==> !Present(r.companyCode)
    ensures k in Group(rows)
    ensures Group(rows)[k].companies == []
  {
    GroupContents(rows);
    if Linked(rows, k) != [] {
      var c := Linked(rows, k)[0];
      LinkedMembership(rows, k, c);
    }
  }

  /** Two identical rows put the same company code in the list twice. */
  lemma DuplicatesKept()
    ensures Group([JoinRow("tech", "Technology", Some("nv")), JoinRow("tech", "Technology", Some("nv"))])["tech"].companies
      == ["nv", "nv"]
  {
  }

  /** The name on the first row with code `k` of a concatenation comes from the
      first part when the code occurs there, from the second otherwise. */
  lemma {:induction false} FirstNameConcat(a: seq<JoinRow>, b: seq<JoinRow>, k: string)
    requires k in Codes(a + b)
    ensures k in Codes(a) ==> FirstName(a + b, k) == FirstName(a, k)
    ensures k !in Codes(a) ==> k in Codes(b) && FirstName(a + b, k) == FirstName(b, k)
    decreases |a|
  {
    if a == [] {
      assert a + b == b;
    } else {
      assert (a + b)[0] == a[0];
      assert (a + b)[1..] == a[1..] + b;
      assert a == [a[0]] + a[1..];
      if a[0].industryCode != k {
        assert k in Codes(a[1..] + b) by {
          var r :| r in a + b && r.industryCode == k;
          assert r in a[1..] + b;
        }
        FirstNameConcat(a[1..], b, k);
      }
    }
  }

  /** The WHERE condition selecting the industry rows with code `k`. */
  function HasCode(k: string): Industry -> bool {
    (i: Industry) => i.code == k
  }

  // ----- The listing query: industries LEFT JOIN industrybabies LEFT JOIN companies -----

  /** The outer join with `companies` for one link: a row per company whose code
      matches the link's, or one row with a null company code when none does. */
  function CompanyRows(ind: Industry, link: Link, companies: seq<Company>): (rows: seq<JoinRow>)
    ensures rows != []
    ensures forall r :: r in rows ==> r.industryCode == ind.code && r.industryName == ind.industry
    ensures forall r :: r in rows && r.companyCode.Some? ==>
      r.companyCode.value == link.compCode && exists c :: c in companies && c.code == r.companyCode.value
    ensures (exists c :: c in companies && c.code == link.compCode) ==>
      JoinRow(ind.code, ind.industry, Some(link.compCode)) in rows
  {
    var matches := Where(companies, (c: Company) => c.code == link.compCode);
    if matches == [] then [JoinRow(ind.code, ind.industry, None)]
    else
      var rows := seq(|matches|, i requires 0 <= i < |matches| => JoinRow(ind.code, ind.industry, Some(matches[i].code)));
      assert matches[0] in matches;
      assert rows[0] == JoinRow(ind.code, ind.industry, Some(link.compCode));
      assert forall r :: r in rows && r.companyCode.Some? ==>
        r.companyCode.value == link.compCode && exists c :: c in companies && c.code == r.companyCode.value
      by {
        forall r | r in rows && r.companyCode.Some?
          ensures r.companyCode.value == link.compCode && exists c :: c in companies && c.code == r.companyCode.value
        {
          var i :| 0 <= i < |rows| && rows[i] == r;
          assert matches[i] in matches;
        }
      }
      rows
  }

  /** The rows of one industry's links, in link order. */
  function LinkRows(ind: Industry, links: seq<Link>, companies: seq<Company>): (rows: seq<JoinRow>)
    ensures links != [] ==> rows != []
    ensures forall r :: r in rows ==> r.industryCode == ind.code && r.industryName == ind.industry
    ensures forall r :: r in rows && r.companyCode.Some? ==>
      (exists l :: l in links && l.compCode == r.companyCode.value)
      && exists c :: c in companies && c.code == r.companyCode.value
    ensures forall l :: l in links && (exists c :: c in companies && c.code == l.compCode) ==>
      JoinRow(ind.code, ind.industry, Some(l.compCode)) in rows
    decreases |links|
  {
    if links == [] then []
    else CompanyRows(ind, links[0], companies) + LinkRows(ind, links[1..], companies)
  }

  /** The outer join with `industrybabies` for one industry: its link rows, or a
      single row with a null company code when it has no links. */
  function IndustryRows(ind: Industry, db: Db): (rows: seq<JoinRow>)
    ensures rows != []
    ensures forall r :: r in rows ==> r.industryCode == ind.code && r.industryName == ind.industry
    ensures forall r :: r in rows && r.companyCode.Some? ==>
      Link(r.companyCode.value, ind.code) in db.links
      && exists c :: c in db.companies && c.code == r.companyCode.value
    ensures forall l :: l in db.links && l.indCode == ind.code && (exists c :: c in db.companies && c.code == l.compCode) ==>
      JoinRow(ind.code, ind.industry, Some(l.compCode)) in rows
  {
    var links := Where(db.links, (l: Link) => l.indCode == ind.code);
    if links == [] then [JoinRow(ind.code, ind.industry, None)]
    else LinkRows(ind, links, db.companies)
  }

  /** The listing query's rows, industry by industry in stored order. */
  function JoinRows(inds: seq<Industry>, db: Db): seq<JoinRow>
    decreases |inds|
  {
    if inds == [] then [] else IndustryRows(inds[0], db) + JoinRows(inds[1..], db)
  }

  lemma CodesAppend(a: seq<JoinRow>, b: seq<JoinRow>)
    ensures Codes(a + b) == Codes(a) + Codes(b)
  {
    forall k | k in Codes(a + b) ensures k in Codes(a) + Codes(b) {
      var r: JoinRow :| r in a + b && r.industryCode == k;
      if r in a {} else { assert r in b; }
    }
    forall k | k in Codes(a) + Codes(b) ensures k in Codes(a + b) {
      if k in Codes(a) {
        var r: JoinRow :| r in a && r.industryCode == k;
        assert r in a + b;
      } else {
        var r: JoinRow :| r in b && r.industryCode == k;
        assert r in a + b;
      }
    }
  }

  lemma IndustryRowsCode(ind: Industry, db: Db)
    ensures Codes(IndustryRows(ind, db)) == {ind.code}
  {
    var rows := IndustryRows(ind, db);
    assert rows[0] in rows;
  }

  /** The codes of an industries table. */
  function IndustryCodes(inds: seq<Industry>): set<string> {
    set i | i in inds :: i.code
  }

  lemma IndustryCodesCons(inds: seq<Industry>)
    requires inds != []
    ensures IndustryCodes(inds) == {inds[0].code} + IndustryCodes(inds[1..])
  {
    assert inds == [inds[0]] + inds[1..];
  }

  /** The listing query yields exactly the industry codes of the industries table. */
  lemma {:induction false} JoinRowsCodes(inds: seq<Industry>, db: Db)
    ensures Codes(JoinRows(inds, db)) == IndustryCodes(inds)
    decreases |inds|
  {
    if inds != [] {
      JoinRowsCodes(inds[1..], db);
      CodesAppend(IndustryRows(inds[0], db), JoinRows(inds[1..], db));
      IndustryRowsCode(inds[0], db);
      IndustryCodesCons(inds);
    }
  }

  /** Every company code the listing query yields is backed by a link to that
      industry and by a company row. */
  lemma {:induction false} JoinRowsBacked(inds: seq<Industry>, db: Db)
    ensures forall r :: r in JoinRows(inds, db) && r.companyCode.Some? ==>
      Link(r.companyCode.value, r.industryCode) in db.links
      && exists c :: c in db.companies && c.code == r.companyCode.value
    decreases |inds|
  {
    if inds != [] {
      JoinRowsBacked(inds[1..], db);
      var head := IndustryRows(inds[0], db);
      var rest := JoinRows(inds[1..], db);
      forall r: JoinRow | r in head + rest
        ensures r.companyCode.Some? ==>
          Link(r.companyCode.value, r.industryCode) in db.links
          && exists c :: c in db.companies && c.code == r.companyCode.value
      {
        if r in head {} else { assert r in rest; }
      }
    }
  }

  /** Every link from an existing company to a listed industry shows up in the
      listing query. */
  lemma {:induction false} JoinRowsComplete(inds: seq<Industry>, db: Db)
    ensures forall ind, l ::
      (ind in inds && l in db.links && l.indCode == ind.code
       && exists c :: c in db.companies && c.code == l.compCode) ==>
      JoinRow(ind.code, ind.industry, Some(l.compCode)) in JoinRows(inds, db)
    decreases |inds|
  {
    if inds != [] {
      JoinRowsComplete(inds[1..], db);
      var head := IndustryRows(inds[0], db);
      var rest := JoinRows(inds[1..], db);
      forall ind, l |
        ind in inds && l in db.links && l.indCode == ind.code
        && exists c :: c in db.companies && c.code == l.compCode
        ensures JoinRow(ind.code, ind.industry, Some(l.compCode)) in head + rest
      {
        if ind == inds[0] {
        } else {
          assert ind in inds[1..];
        }
      }
    }
  }

  /** The name the listing query gives industry code `k`: that of the first
      industry row with that code. */
  lemma {:induction false} JoinRowsFirstName(inds: seq<Industry>, db: Db, k: string)
    requires k in Codes(JoinRows(inds, db))
    ensures Where(inds, HasCode(k)) != []
    ensures FirstName(JoinRows(inds, db), k) == Where(inds, HasCode(k))[0].industry
    decreases |inds|
  {
    JoinRowsCodes(inds, db);
    var head := IndustryRows(inds[0], db);
    var rest := JoinRows(inds[1..], db);
    assert JoinRows(inds, db) == head + rest;
    FirstNameConcat(head, rest, k);
    if inds[0].code == k {
      assert head[0] in head;
      var name := FirstName(head, k);
      var i :| 0 <= i < |head| && head[i].industryCode == k && head[i].industryName == name;
      assert head[i] in head;
    } else {
      assert k !in Codes(head);
      JoinRowsFirstName(inds[1..], db, k);
    }
  }

  // ----- The route handlers -----

  /** GET /industries: the listing mapping. */
  function ListIndustries(db: Db): Listing {
    Group(JoinRows(db.industries, db))
  }

  /** The listing has one entry per industry code in the table, keyed by that
      code, named after the first industry row with that code. */
  lemma ListingEntries(db: Db)
    ensures ListIndustries(db).Keys == IndustryCodes(db.industries)
    ensures forall k :: k in ListIndustries(db) ==>
      ListIndustries(db)[k].code == k
      && Where(db.industries, HasCode(k)) != []
      && ListIndustries(db)[k].industry == Where(db.industries, HasCode(k))[0].industry
  {
    var rows := JoinRows(db.industries, db);
    GroupContents(rows);
    JoinRowsCodes(db.industries, db);
    forall k | k in ListIndustries(db)
      ensures Where(db.industries, HasCode(k)) != []
      ensures ListIndustries(db)[k].industry == Where(db.industries, HasCode(k))[0].industry
    {
      JoinRowsFirstName(db.industries, db, k);
    }
  }

  /** A company code is listed under industry `k` exactly when it is non-empty, a
      link (code, k) exists and a company with that code exists. */
  lemma ListingCompanies(db: Db, k: string, c: string)
    requires k in ListIndustries(db)
    ensures c in ListIndustries(db)[k].companies <==>
      c != "" && Link(c, k) in db.links && exists co :: co in db.companies && co.code == c
  {
    var rows := JoinRows(db.industries, db);
    GroupContents(rows);
    JoinRowsCodes(db.industries, db);
    JoinRowsBacked(db.industries, db);
    JoinRowsComplete(db.industries, db);
    LinkedMembership(rows, k, c);
    if c != "" && Link(c, k) in db.links && exists co :: co in db.companies && co.code == c {
      var ind :| ind in db.industries && ind.code == k;
      assert JoinRow(ind.code, ind.industry, Some(c)) in rows;
    }
  }

  /** An industry without links is listed with no companies. */
  lemma ListingUnlinked(db: Db, k: string)
    requires k in ListIndustries(db)
    requires forall l :: l in db.links ==> l.indCode != k
    ensures ListIndustries(db)[k].companies == []
  {
    var rows := JoinRows(db.industries, db);
    GroupContents(rows);
    JoinRowsBacked(db.industries, db);
    UnlinkedIndustry(rows, k);
  }

  /** POST /industries: inserts the industry under the slug of the given code and
      returns the inserted row; nothing else changes. */
  function CreateIndustry(db: Db, slug: string -> string, inputCode: string, industry: string): (o: Outcome<Industry>)
    ensures o.result.Ok? && o.result.value.code == slug(inputCode) && o.result.value.industry == industry
    ensures o.store.industries == db.industries + [o.result.value]
    ensures o.store.companies == db.companies && o.store.invoices == db.invoices && o.store.links == db.links
  {
    var row := Industry(slug(inputCode), industry);
    Outcome(Ok(row), db.(industries := db.industries + [row]))
  }

  /** POST /industries/:compCode/:indCode: inserts exactly that pair into the
      association table and returns it; nothing else changes. */
  function LinkCompany(db: Db, compCode: string, indCode: string): (o: Outcome<Link>)
    ensures o.result == Ok(Link(compCode, indCode))
    ensures o.store.links == db.links + [Link(compCode, indCode)]
    ensures o.store.companies == db.companies && o.store.invoices == db.invoices && o.store.industries == db.industries
  {
    Outcome(Ok(Link(compCode, indCode)), db.(links := db.links + [Link(compCode, indCode)]))
  }

  /** A freshly created industry appears in the listing under its slug, with the
      name it was given when no industry had that code before. */
  lemma CreateThenList(db: Db, slug: string -> string, inputCode: string, industry: string)
    ensures slug(inputCode) in ListIndustries(CreateIndustry(db, slug, inputCode, industry).store)
    ensures (forall i :: i in db.industries ==> i.code != slug(inputCode)) ==>
      ListIndustries(CreateIndustry(db, slug, inputCode, industry).store)[slug(inputCode)].industry == industry
  {
    var k := slug(inputCode);
    var row := Industry(k, industry);
    var after := CreateIndustry(db, slug, inputCode, industry).store;
    ListingEntries(after);
    assert row in after.industries;
    assert k in IndustryCodes(after.industries);
    if forall i :: i in db.industries ==> i.code != k {
      FreshIndustryFirst(db.industries, row);
    }
  }

  /** Appending a row whose code no earlier row has makes it the first with that code. */
  lemma FreshIndustryFirst(inds: seq<Industry>, row: Industry)
    requires forall i :: i in inds ==> i.code != row.code
    ensures Where(inds + [row], HasCode(row.code)) == [row]
  {
    Store.WhereAppend(inds, [row], HasCode(row.code));
    assert Where(inds, HasCode(row.code)) == [];
    assert [row][1..] == [];
  }

  /** Linking an existing company to an existing industry lists the company under
      that industry (unless its code is the empty string). */
  lemma LinkThenList(db: Db, compCode: string, indCode: string)
    requires exists i :: i in db.industries && i.code == indCode
    requires exists c :: c in db.companies && c.code == compCode
    requires compCode != ""
    ensures indCode in ListIndustries(LinkCompany(db, compCode, indCode).store)
    ensures compCode in ListIndustries(LinkCompany(db, compCode, indCode).store)[indCode].companies
  {
    var after := LinkCompany(db, compCode, indCode).store;
    ListingEntries(after);
    ListingCompanies(after, indCode, compCode);
  }
}

=== FILE: invoices.dfy ===
/** The invoices routes: lookup and removal by id, and the update that derives
    `paid_date` from the requested `paid` flag. */
module Invoices {
  import opened Store

  /** The WHERE condition `id = $1`. */
  function IdIs(id: int): Invoice -> bool {
    (inv: Invoice) => inv.id == id
  }

  /** The stored flag and date agree: an invoice has a paid date exactly when it
      is marked paid. */
  predicate Consistent(inv: Invoice) {
    inv.paid <==> inv.paidDate.Some?
  }

  // ----- The paid-date rule -----

  /** The three-way rule of PUT /invoices/:id: paying an invoice that has no
      paid date stamps it with `now`, un-paying clears the date, and anything else
      keeps the current date. */
  function NextPaidDate(current: Option<Date>, paid: bool, now: Date): (r: Option<Date>)
    ensures !paid ==> r == None
    ensures paid && current == None ==> r == Some(now)
    ensures paid && current.Some? ==> r == current
    ensures r.Some? <==> paid
  {
    if current == None && paid then Some(now)
    else if !paid then None
    else current
  }

  /** The rule as one expression: when paying, the current date if there is one
      and `now` otherwise; when un-paying, no date. */
  function ClosedFormPaidDate(current: Option<Date>, paid: bool, now: Date): Option<Date> {
    if !paid then None
    else match current
      case Some(d) => Some(d)
      case None => Some(now)
  }

  lemma PaidDateClosedForm(current: Option<Date>, paid: bool, now: Date)
    ensures NextPaidDate(current, paid, now) == ClosedFormPaidDate(current, paid, now)
  {
  }

  /** Paying again, at any later time, never moves a date already set. */
  lemma PaidDateIdempotent(current: Option<Date>, now1: Date, now2: Date)
    ensures NextPaidDate(NextPaidDate(current, true, now1), true, now2) == NextPaidDate(current, true, now1)
  {
  }

  // ----- GET /invoices/:id and DELETE /invoices/:id -----

  /** GET /invoices/:id: a row with that id, or NotFound when there is none. */
  function GetInvoice(db: Db, id: int): (r: Result<Invoice>)
    ensures r.NotFound? <==> forall inv :: inv in db.invoices ==> inv.id != id
    ensures r.Ok? ==> r.value in db.invoices && r.value.id == id
  {
    var rows := Where(db.invoices, IdIs(id));
    if |rows| == 0 then NotFound
    else
      assert rows[0] in rows;
      Ok(rows[0])
  }

  /** DELETE /invoices/:id: removes every row with that id; NotFound when the
      DELETE removed nothing, in which case the store is left as it was. */
  function DeleteInvoice(db: Db, id: int): (o: Outcome<Status>)
    ensures o.result.NotFound? <==> forall inv :: inv in db.invoices ==> inv.id != id
    ensures o.result.NotFound? ==> o.store == db
    ensures o.result.Ok? ==> o.result.value == Deleted
    ensures forall inv :: inv in o.store.invoices <==> inv in db.invoices && inv.id != id
    ensures forall inv: Invoice :: inv.id != id ==> multiset(o.store.invoices)[inv] == multiset(db.invoices)[inv]
    ensures o.store.companies == db.companies && o.store.industries == db.industries && o.store.links == db.links
  {
    var d := DeleteWhere(db.invoices, IdIs(id));
    var after := db.(invoices := d.table);
    if d.rowCount == 0 then Outcome(NotFound, after) else Outcome(Ok(Deleted), after)
  }

  /** After a DELETE, the id is gone: looking it up, or deleting it again, is
      NotFound. */
  lemma DeleteThenGet(db: Db, id: int)
    ensures GetInvoice(DeleteInvoice(db, id).store, id) == NotFound
    ensures DeleteInvoice(DeleteInvoice(db, id).store, id).result == NotFound
  {
  }

  // ----- PUT /invoices/:id -----

  /** The SET list of the update: amt, paid and paid_date, nothing else. */
  function Rewrite(amt: Amount, paid: bool, paidDate: Option<Date>): Invoice -> Invoice {
    (inv: Invoice) => inv.(amt := amt, paid := paid, paidDate := paidDate)
  }

  /** The update itself, shared by both readings of the handler: rewrite the rows
      with that id and reply with the first row the UPDATE returned. */
  function ApplyUpdate(db: Db, id: int, amt: Amount, paid: bool, paidDate: Option<Date>): (o: Outcome<Invoice>)
    requires exists inv :: inv in db.invoices && inv.id == id
    ensures o.result.Ok?
    ensures o.result.value in o.store.invoices
    ensures o.result.value.id == id && o.result.value.amt == amt
    ensures o.result.value.paid == paid && o.result.value.paidDate == paidDate
    ensures o.store.companies == db.companies && o.store.industries == db.industries && o.store.links == db.links
    ensures |o.store.invoices| == |db.invoices|
    ensures forall i :: 0 <= i < |db.invoices| ==>
      o.store.invoices[i] ==
        if db.invoices[i].id == id then db.invoices[i].(amt := amt, paid := paid, paidDate := paidDate)
        else db.invoices[i]
  {
    var p, f := IdIs(id), Rewrite(amt, paid, paidDate);
    var w := UpdateWhere(db.invoices, p, f);
    assert Where(db.invoices, p) != [] by {
      var inv :| inv in db.invoices && inv.id == id;
      assert inv in Where(db.invoices, p);
    }
    var first := Where(db.invoices, p)[0];
    assert w.returned[0] in w.table && w.returned[0] == first.(amt := amt, paid := paid, paidDate := paidDate)
      && first.id == id
    by {
      assert first in Where(db.invoices, p);
      UpdateReturned(db.invoices, p, f);
      UpdateThenWhere(db.invoices, p, f);
      assert w.returned[0] in Where(w.table, p);
    }
    assert forall i :: 0 <= i < |db.invoices| ==>
      w.table[i] ==
        if db.invoices[i].id == id then db.invoices[i].(amt := amt, paid := paid, paidDate := paidDate)
        else db.invoices[i];
    Outcome(Ok(w.returned[0]), db.(invoices := w.table))
  }

  /** PUT /invoices/:id as its own comments intend it, reading the stored paid
      date before applying the rule (the route as written does not read it; see
      `UpdateInvoiceAsWritten`): NotFound, with the store untouched, when no row
      has the id; otherwise amt, paid and the derived paid_date are written to
      the rows with that id. */
  function UpdateInvoice(db: Db, id: int, amt: Amount, paid: bool, now: Date): (o: Outcome<Invoice>)
    ensures o.result.NotFound? <==> forall inv :: inv in db.invoices ==> inv.id != id
    ensures o.result.NotFound? ==> o.store == db
    ensures o.result.Ok? ==> o.result.value.id == id && o.result.value.amt == amt && o.result.value.paid == paid
    ensures o.result.Ok? ==> (o.result.value.paidDate.Some? <==> paid)
  {
    match GetInvoice(db, id)
    case NotFound => Outcome(NotFound, db)
    case Ok(current) => ApplyUpdate(db, id, amt, paid, NextPaidDate(current.paidDate, paid, now))
  }

  /** The rows of `SELECT paid FROM invoices WHERE id = $1`: the paid flag only. */
  datatype PaidColumn = PaidColumn(paid: bool)

  /** Reading `paid_date` off such a row: the column was not selected, so the
      value is undefined, which the rule takes as "no date". */
  function PaidDateOf(row: PaidColumn): Option<Date> {
    None
  }

  /** PUT /invoices/:id as the route is written: the lookup projects only `paid`,
      so the rule always sees an absent current date.  Paying stamps `now`,
      un-paying clears the date, and the UPDATE writes that date to every row
      with the id. */
  function UpdateInvoiceAsWritten(db: Db, id: int, amt: Amount, paid: bool, now: Date): (o: Outcome<Invoice>)
    ensures o.result.NotFound? <==> forall inv :: inv in db.invoices ==> inv.id != id
    ensures o.result.NotFound? ==> o.store == db
    ensures o.result.Ok? ==> o.result.value.id == id && o.result.value.amt == amt && o.result.value.paid == paid
    ensures o.result.Ok? ==> (o.result.value.paidDate.Some? <==> paid)
    ensures o.result.Ok? && paid ==> o.result.value.paidDate == Some(now)
    ensures o.result.Ok? ==> o.result.value in o.store.invoices
    ensures o.store.companies == db.companies && o.store.industries == db.industries && o.store.links == db.links
    ensures |o.store.invoices| == |db.invoices|
    ensures forall i :: 0 <= i < |db.invoices| ==>
      o.store.invoices[i] ==
        if db.invoices[i].id == id
        then db.invoices[i].(amt := amt, paid := paid, paidDate := if paid then Some(now) else None)
        else db.invoices[i]
  {
    var lookup := Where(db.invoices, IdIs(id));
    if |lookup| == 0 then Outcome(NotFound, db)
    else
      assert lookup[0] in lookup;
      var current := PaidColumn(lookup[0].paid);
      ApplyUpdate(db, id, amt, paid, NextPaidDate(PaidDateOf(current), paid, now))
  }

  // ----- Properties of the update -----

  /** The update touches only amt, paid and paid_date, and only on rows with the
      id; id, company, creation date and every other row are kept. */
  lemma UpdateScope(db: Db, id: int, amt: Amount, paid: bool, now: Date)
    ensures UpdateInvoice(db, id, amt, paid, now).store.companies == db.companies
    ensures UpdateInvoice(db, id, amt, paid, now).store.industries == db.industries
    ensures UpdateInvoice(db, id, amt, paid, now).store.links == db.links
    ensures |UpdateInvoice(db, id, amt, paid, now).store.invoices| == |db.invoices|
    ensures forall i :: 0 <= i < |db.invoices| ==>
      var before := db.invoices[i];
      var after := UpdateInvoice(db, id, amt, paid, now).store.invoices[i];
      after.id == before.id && after.compCode == before.compCode && after.addDate == before.addDate
      && (before.id != id ==> after == before)
      && (before.id == id ==> after.amt == amt && after.paid == paid)
  {
  }

  /** The date the update writes, against the row GET /invoices/:id would show:
      a first payment stamps `now`, a repeated payment keeps the date, and
      un-paying clears it. */
  lemma UpdatePaidDate(db: Db, id: int, amt: Amount, paid: bool, now: Date, before: Invoice)
    requires GetInvoice(db, id) == Ok(before)
    ensures UpdateInvoice(db, id, amt, paid, now).result.Ok?
    ensures !paid ==> UpdateInvoice(db, id, amt, paid, now).result.value.paidDate == None
    ensures paid && before.paidDate == None ==> UpdateInvoice(db, id, amt, paid, now).result.value.paidDate == Some(now)
    ensures paid && before.paidDate.Some? ==>
      UpdateInvoice(db, id, amt, paid, now).result.value.paidDate == before.paidDate
  {
  }

  /** After an update, GET /invoices/:id shows the row the update replied with. */
  lemma UpdateThenGet(db: Db, id: int, amt: Amount, paid: bool, now: Date)
    requires exists inv :: inv in db.invoices && inv.id == id
    ensures GetInvoice(UpdateInvoice(db, id, amt, paid, now).store, id) == UpdateInvoice(db, id, amt, paid, now).result
  {
    var current := GetInvoice(db, id).value;
    var pd := NextPaidDate(current.paidDate, paid, now);
    UpdateThenWhere(db.invoices, IdIs(id), Rewrite(amt, paid, pd));
  }

  /** Paying twice keeps the date of the first payment. */
  lemma RepayKeepsDate(db: Db, id: int, amt1: Amount, amt2: Amount, now1: Date, now2: Date)
    requires exists inv :: inv in db.invoices && inv.id == id
    ensures UpdateInvoice(UpdateInvoice(db, id, amt1, true, now1).store, id, amt2, true, now2).result.value.paidDate
         == UpdateInvoice(db, id, amt1, true, now1).result.value.paidDate
  {
    UpdateThenGet(db, id, amt1, true, now1);
  }

  /** Every row the update writes is consistent, so a store whose invoices are all
      consistent stays so. */
  lemma UpdateKeepsConsistent(db: Db, id: int, amt: Amount, paid: bool, now: Date)
    requires forall inv :: inv in db.invoices ==> Consistent(inv)
    ensures forall inv :: inv in UpdateInvoice(db, id, amt, paid, now).store.invoices ==> Consistent(inv)
  {
    var after := UpdateInvoice(db, id, amt, paid, now).store.invoices;
    forall inv | inv in after ensures Consistent(inv) {
      var i :| 0 <= i < |after| && after[i] == inv;
      assert db.invoices[i] in db.invoices;
    }
  }

  /** The two readings of the handler agree exactly when the stored date plays no
      part: when un-paying, when the id is unknown, when the first row with the id
      has no paid date, or when that date happens to be `now`. */
  lemma AsWrittenAgreement(db: Db, id: int, amt: Amount, paid: bool, now: Date)
    ensures UpdateInvoiceAsWritten(db, id, amt, paid, now) == UpdateInvoice(db, id, amt, paid, now)
      <==> !paid || GetInvoice(db, id).NotFound?
           || GetInvoice(db, id).value.paidDate == None || GetInvoice(db, id).value.paidDate == Some(now)
  {
    var written, intended := UpdateInvoiceAsWritten(db, id, amt, paid, now), UpdateInvoice(db, id, amt, paid, now);
    var lookup := Where(db.invoices, IdIs(id));
    if |lookup| == 0 {
      assert GetInvoice(db, id).NotFound?;
      assert written == Outcome(NotFound, db) == intended;
    } else {
      var d := lookup[0].paidDate;
      assert GetInvoice(db, id) == Ok(lookup[0]);
      assert written == ApplyUpdate(db, id, amt, paid, NextPaidDate(None, paid, now));
      assert intended == ApplyUpdate(db, id, amt, paid, NextPaidDate(d, paid, now));
      if paid && d != None && d != Some(now) {
        assert intended.result.value.paidDate == d;
        assert written.result.value.paidDate == Some(now);
      }
    }
  }

  /** The handler as written also keeps every stored invoice consistent: whatever
      date it writes, it writes one exactly when the invoice is paid. */
  lemma AsWrittenKeepsConsistent(db: Db, id: int, amt: Amount, paid: bool, now: Date)
    requires forall inv :: inv in db.invoices ==> Consistent(inv)
    ensures forall inv :: inv in UpdateInvoiceAsWritten(db, id, amt, paid, now).store.invoices ==> Consistent(inv)
  {
    var after := UpdateInvoiceAsWritten(db, id, amt, paid, now).store.invoices;
    forall inv | inv in after ensures Consistent(inv) {
      var i :| 0 <= i < |after| && after[i] == inv;
      assert db.invoices[i] in db.invoices;
    }
  }

  /** After the update as written, GET /invoices/:id shows the row it replied with. */
  lemma AsWrittenThenGet(db: Db, id: int, amt: Amount, paid: bool, now: Date)
    requires exists inv :: inv in db.invoices && inv.id == id
    ensures GetInvoice(UpdateInvoiceAsWritten(db, id, amt, paid, now).store, id)
         == UpdateInvoiceAsWritten(db, id, amt, paid, now).result
  {
    UpdateThenWhere(db.invoices, IdIs(id), Rewrite(amt, paid, NextPaidDate(None, paid, now)));
  }

  /** As written, a paid invoice paid again is re-stamped with the new time,
      where reading the stored date keeps the first one. */
  lemma AsWrittenRestampsPaidInvoice()
    ensures
      var db := Db([], [Invoice(1, "nv", 1244, true, 20240101, Some(20240102))], [], []);
      UpdateInvoiceAsWritten(db, 1, 1244, true, 20240301).result.value.paidDate == Some(20240301)
      && UpdateInvoice(db, 1, 1244, true, 20240301).result.value.paidDate == Some(20240102)
  {
    var db := Db([], [Invoice(1, "nv", 1244, true, 20240101, Some(20240102))], [], []);
    assert Where(db.invoices, IdIs(1)) == db.invoices;
  }
}

=== FILE: store.dfy ===
/** The four tables of the bookkeeping store and the three statement shapes the
    route handlers issue against them: SELECT ... WHERE, UPDATE ... WHERE ...
    RETURNING *, and DELETE ... WHERE.  A table is a sequence of rows in stored
    order; no ORDER BY is ever issued, so that order is only "some fixed order". */
module Store {

  datatype Option<+T> = None | Some(value: T)

  /** A route's reply: the value it sends, or the 404 it raises when a lookup by
      key matched nothing. */
  datatype Result<+T> = Ok(value: T) | NotFound

  /** A write route's reply together with the store as it stands afterwards. */
  datatype Outcome<+T> = Outcome(result: Result<T>, store: Db)

  /** The body of a successful DELETE reply: `{status: 'deleted'}`. */
  datatype Status = Deleted

  /** Dates are opaque instants; amounts are passed through untouched. */
  type Date = int
  type Amount = int

  datatype Company = Company(code: string, name: string, description: Option<string>)

  datatype Invoice = Invoice(
    id: int,
    compCode: string,
    amt: Amount,
    paid: bool,
    addDate: Date,
    paidDate: Option<Date>)

  datatype Industry = Industry(code: string, industry: string)

  /** A row of the `industrybabies` association table. */
  datatype Link = Link(compCode: string, indCode: string)

  datatype Db = Db(
    companies: seq<Company>,
    invoices: seq<Invoice>,
    industries: seq<Industry>,
    links: seq<Link>)

  /** The rows of a table that satisfy a WHERE condition, in stored order. */
  function Where<T(!new)>(rows: seq<T>, p: T -> bool): (r: seq<T>)
    ensures |r| <= |rows|
    ensures forall x :: x in r <==> x in rows && p(x)
    ensures (forall x :: x in rows ==> p(x)) ==> r == rows
    ensures (forall x :: x in rows ==> !p(x)) ==> r == []
    ensures (exists x :: x in rows && !p(x)) ==> |r| < |rows|
    decreases |rows|
  {
    if rows == [] then []
    else if p(rows[0]) then [rows[0]] + Where(rows[1..], p)
    else Where(rows[1..], p)
  }

  /** A SELECT returns each matching row as often as it is stored, and no other. */
  lemma {:induction false} WhereCount<T(!new)>(rows: seq<T>, p: T -> bool, x: T)
    ensures multiset(Where(rows, p))[x] == if p(x) then multiset(rows)[x] else 0
    decreases |rows|
  {
    if rows != [] {
      WhereCount(rows[1..], p, x);
      assert rows == [rows[0]] + rows[1..];
    }
  }

  /** What an UPDATE ... RETURNING * leaves behind: the rewritten table and the
      rows it returns. */
  datatype Written<T> = Written(table: seq<T>, returned: seq<T>)

  /** UPDATE: every row satisfying `p` is replaced by `f` of itself, in place;
      the returned rows are the rewritten ones, in stored order. */
  function UpdateWhere<T(!new)>(rows: seq<T>, p: T -> bool, f: T -> T): (w: Written<T>)
    ensures |w.table| == |rows|
    ensures forall i :: 0 <= i < |rows| ==> w.table[i] == if p(rows[i]) then f(rows[i]) else rows[i]
    decreases |rows|
  {
    if rows == [] then Written([], [])
    else
      var rest := UpdateWhere(rows[1..], p, f);
      if p(rows[0]) then Written([f(rows[0])] + rest.table, [f(rows[0])] + rest.returned)
      else Written([rows[0]] + rest.table, rest.returned)
  }

  /** The rows an UPDATE returns are the selected rows, rewritten, in order. */
  lemma {:induction false} UpdateReturned<T(!new)>(rows: seq<T>, p: T -> bool, f: T -> T)
    ensures |UpdateWhere(rows, p, f).returned| == |Where(rows, p)|
    ensures forall i :: 0 <= i < |Where(rows, p)| ==> UpdateWhere(rows, p, f).returned[i] == f(Where(rows, p)[i])
    decreases |rows|
  {
    if rows != [] {
      UpdateReturned(rows[1..], p, f);
      if p(rows[0]) {
        assert Where(rows, p) == [rows[0]] + Where(rows[1..], p);
      } else {
        assert Where(rows, p) == Where(rows[1..], p);
      }
    }
  }

  /** DELETE: the table without the rows satisfying `p`, and the driver's
      `rowCount`. */
  datatype Removed<T> = Removed(table: seq<T>, rowCount: nat)

  function DeleteWhere<T(!new)>(rows: seq<T>, p: T -> bool): (d: Removed<T>)
    ensures forall x :: x in d.table <==> x in rows && !p(x)
    ensures d.rowCount == 0 <==> forall x :: x in rows ==> !p(x)
    ensures d.rowCount == 0 ==> d.table == rows
    ensures |d.table| + d.rowCount == |rows|
    ensures forall x :: multiset(d.table)[x] == if p(x) then 0 else multiset(rows)[x]
  {
    var kept := Where(rows, (x: T) => !p(x));
    assert forall x :: multiset(kept)[x] == if p(x) then 0 else multiset(rows)[x] by {
      forall x ensures multiset(kept)[x] == if p(x) then 0 else multiset(rows)[x] {
        WhereCount(rows, (y: T) => !p(y), x);
      }
    }
    Removed(kept, |rows| - |kept|)
  }

  /** An UPDATE whose WHERE matched nothing writes nothing. */
  lemma UpdateNothingMatched<T(!new)>(rows: seq<T>, p: T -> bool, f: T -> T)
    requires Where(rows, p) == []
    ensures UpdateWhere(rows, p, f).table == rows
    ensures UpdateWhere(rows, p, f).returned == []
  {
    var w := UpdateWhere(rows, p, f);
    UpdateReturned(rows, p, f);
    forall i | 0 <= i < |rows|
      ensures w.table[i] == rows[i]
    {
      assert rows[i] in rows && rows[i] !in Where(rows, p);
    }
  }

  /** Filtering distributes over concatenation: stored order is kept. */
  lemma {:induction false} WhereAppend<T(!new)>(a: seq<T>, b: seq<T>, p: T -> bool)
    ensures Where(a + b, p) == Where(a, p) + Where(b, p)
    decreases |a|
  {
    if a == [] {
      assert a + b == b;
    } else {
      assert (a + b)[0] == a[0];
      assert (a + b)[1..] == a[1..] + b;
      WhereAppend(a[1..], b, p);
    }
  }

  /** When the rewrite keeps every row it touches inside the WHERE condition,
      selecting again afterwards finds exactly the rows the UPDATE returned. */
  lemma {:induction false} UpdateThenWhere<T(!new)>(rows: seq<T>, p: T -> bool, f: T -> T)
    requires forall x :: p(x) ==> p(f(x))
    ensures Where(UpdateWhere(rows, p, f).table, p) == UpdateWhere(rows, p, f).returned
    decreases |rows|
  {
    if rows != [] {
      UpdateThenWhere(rows[1..], p, f);
      var w := UpdateWhere(rows, p, f);
      var rest := UpdateWhere(rows[1..], p, f);
      if p(rows[0]) {
        assert w.table == [f(rows[0])] + rest.table;
        assert w.returned == [f(rows[0])] + rest.returned;
        assert w.table[1..] == rest.table;
      } else {
        assert w.table == [rows[0]] + rest.table;
        assert w.table[1..] == rest.table;
      }
    }
  }
}
